=== FILE: README.md ===
# Hindsight Experience Replay buffer — a Dafny model

This project models `HindsightExperienceReplayBuffer` from
`stable_baselines3/her/replay_buffer.py`. The buffer is a fixed-capacity
ring of stored experience for goal-conditioned reinforcement learning.
Transitions are collected into an episode accumulator. When an episode ends,
the buffer stores it in one of two layouts:

- **flat** (`add_her_while_sampling = False`): one slot per transition. Every
  transition is written as it happened and is followed by `n_sampled_goal`
  copies, except the last transition under FUTURE, which has no later goal
  (replay_buffer.py:221-224); RANDOM raises NotImplementedError (line 328).
  Each copy's desired goal is replaced by a goal achieved in the same
  episode, and its reward is recomputed for that goal. The goal-selection
  strategy (FUTURE, FINAL, EPISODE or RANDOM) decides which achieved goals
  may be chosen.
- **per-episode** (`add_her_while_sampling = True`): one slot per episode,
  with `max_episode_len + 1` observation rows and the episode's real length.
  Relabelling happens at sample time, and only FUTURE is implemented.

The model is a set of pure functions over immutable values. Every Python
exception becomes an `Err` of the `HerTypes.Error` datatype. Each random
draw (`np.random.choice`, `np.random.uniform`, `np.random.randint`) is an
explicit argument. A precondition keeps each draw in the range numpy draws
from. The environment's `compute_reward` is a function-valued field of
`HerTypes.GoalEnv`.

Modules:

- `HerTypes`: observations as the goal environment's dictionary view
  (`observation`, `achieved_goal`, `desired_goal`), transitions, sampled
  rows, the strategies and their keys, and the errors.
- `RingStore`: the write position and fullness flag shared by both layouts.
  A slot is `None` until it is first written; that is numpy's zero fill.
- `GoalSelection`: `_sample_achieved_goal` and `_sample_achieved_goals`.
- `Relabel`: the relabelled copy of a transition, and the sequence of writes
  a flat flush makes.
- `EpisodeStore`: the per-episode slot and the per-episode branch of
  `_add_transition`.
- `LazySampler`: the per-episode sampling of `_get_samples`.
- `HerBuffer`: the constructor, `add`, `_store_episode`, the flat branch of
  `_add_transition`, and `sample`.

The per-episode sampler draws its timestep with the corrected definition
`LazySampler.Timestep`, a uniform index below the episode's length. The call
as written draws from a different range; see "## Findings".

Three behaviours of the code are worth stating outright:

- A flat buffer becomes full at the write that lands in its last slot. That
  write sets `full` and wraps `pos` to 0 (replay_buffer.py:270-273), so
  exactly `capacity` writes into a fresh buffer leave it full.
- Rewriting a per-episode slot with a shorter episode keeps the old
  episode's rows past the new length (`EpisodeStore.MergeEpisode`). The
  comment at replay_buffer.py:93 calls those rows zero padding, which holds
  only for a slot's first write.
- Take a flat FUTURE buffer with capacity 100 and `n_sampled_goal = 4`, and
  store one five-step episode. That makes 21 writes. Slot 19 holds the last
  copy of transition 3, relabelled with the goal achieved at step 4. Slot 20
  holds the final transition unchanged (`HerBuffer.FutureEpisodeScenario`).

## Model

| member | source | states |
|---|---|---|
| `HerTypes.KeyToGoalStrategy` | stable_baselines3/her/replay_buffer.py:32-39 | a key is accepted exactly when it is one of the four strategy names, and it maps to the strategy of that name |
| `HerTypes.KeyRoundTrip` | stable_baselines3/her/replay_buffer.py:34-39 | every strategy is found again from its own key |
| `RingStore.Empty` | stable_baselines3/her/replay_buffer.py:82-101 | a fresh store has the requested number of slots, all unwritten, with `pos` 0 and not full |
| `RingStore.Push` | stable_baselines3/her/replay_buffer.py:263-273 | one write fills slot `pos` and leaves the other slots alone; `pos` advances by one modulo the capacity; the store becomes full exactly when the write lands in the last slot |
| `RingStore.PushAll` | stable_baselines3/her/replay_buffer.py:216-250 | a run of writes keeps the store consistent and its capacity unchanged, and never clears `full` |
| `RingStore.PushAllPosition` | stable_baselines3/her/replay_buffer.py:270-273 | after k writes, `pos` is the start plus k modulo the capacity, and the store is full iff it was full already or the writes reached the end |
| `RingStore.PushAllContents` | stable_baselines3/her/replay_buffer.py:263-273 | each of the last `capacity` written values sits in the slot it was written to; every slot no write reached is unchanged |
| `RingStore.FillFromEmpty` | stable_baselines3/her/replay_buffer.py:263-273 | from a fresh store, fewer than `capacity` writes put value k in slot k and leave the rest unwritten; the store is full iff at least `capacity` writes happened |
| `GoalSelection.SelectGoalIndex` | stable_baselines3/her/replay_buffer.py:315-331 | FUTURE picks the drawn index strictly after `i`, FINAL the last index, EPISODE the drawn index; RANDOM raises NotImplementedError; FUTURE at the last transition is a choice from an empty range |
| `GoalSelection.SampleAchievedGoal` | stable_baselines3/her/replay_buffer.py:306-332 | the result is the achieved goal of an index the strategy allows (later than `i` for FUTURE, the last for FINAL, any for EPISODE), with the same error cases |
| `GoalSelection.SampleAchievedGoals` | stable_baselines3/her/replay_buffer.py:292-304 | exactly `n_sampled_goal` goals, each one allowed by the strategy and equal to the drawn index's achieved goal; fails exactly when some draw fails |
| `Relabel.RelabelTransition` | stable_baselines3/her/replay_buffer.py:231-250 | the copy keeps observation, achieved goals and action; both desired goals become the new goal; the reward is the environment's reward for that goal; the copy is not terminal |
| `Relabel.RelabelAll` | stable_baselines3/her/replay_buffer.py:229-250 | one relabelled copy per sampled goal, in order |
| `Relabel.EpisodeWrites` | stable_baselines3/her/replay_buffer.py:213-250 | a flat flush succeeds unless the strategy is RANDOM with copies to make, and then fails with NotImplementedError |
| `Relabel.EpisodeWriteCount` | stable_baselines3/her/replay_buffer.py:216-250 | a flush of L transitions makes L + (L - 1) n writes under FUTURE and L (1 + n) otherwise |
| `Relabel.EpisodeWritesRaw` | stable_baselines3/her/replay_buffer.py:216-219 | transition m is written, unchanged, at the start of block m of n + 1 writes |
| `Relabel.EpisodeWritesCopies` | stable_baselines3/her/replay_buffer.py:226-250 | the n writes after transition m are relabels of it with goals the strategy allows for m (none after the last transition under FUTURE) |
| `EpisodeStore.ZeroSlot` | stable_baselines3/her/replay_buffer.py:86-100 | a preallocated episode slot has `max_episode_len + 1` observation rows, `max_episode_len` action, reward and done rows, and length 0 |
| `EpisodeStore.ZipEpisode` | stable_baselines3/her/replay_buffer.py:253-254 | transposing an episode gives five aligned arrays, row t holding transition t's fields; the observation array has two dimensions iff the episode is non-empty |
| `EpisodeStore.Overlay` | stable_baselines3/her/replay_buffer.py:279-283 | a slice assignment `a[:k] = v` replaces the first k rows by v and keeps every later row |
| `EpisodeStore.MergeEpisode` | stable_baselines3/her/replay_buffer.py:279-285 | the slot holds the L observations then the last next observation, the L actions, rewards and dones, and length L; rows beyond are those the slot held before |
| `EpisodeStore.WriteEpisode` | stable_baselines3/her/replay_buffer.py:274-290 | fails on non-stacked observations, on a store without slots, and on an episode longer than a slot; otherwise writes the merged episode to slot `pos` only, advancing `pos` and setting `full` as a flat write does |
| `LazySampler.FutureProbability` | stable_baselines3/her/replay_buffer.py:143-144 | the relabelling probability is n / (n + 1): in [0, 1), and zero exactly when n is zero |
| `LazySampler.Timestep` | stable_baselines3/her/replay_buffer.py:159-162 | the corrected timestep lies in [0, steps) |
| `LazySampler.AsWrittenTimestepRange` | stable_baselines3/her/replay_buffer.py:161 | the timestep as written lies in [1, steps], so it never picks step 0; it is `steps`, one past the last step, exactly when the episode has one step or the draw is 0.0 |
| `LazySampler.AsWrittenTimestepOneStep` | stable_baselines3/her/replay_buffer.py:161 | for a one-step episode the timestep as written is 1, outside the episode |
| `LazySampler.FutureTimestep` | stable_baselines3/her/replay_buffer.py:167-169 | the future timestep lies in [t + 1, steps], a later observation up to the terminal one |
| `LazySampler.RelabelRow` | stable_baselines3/her/replay_buffer.py:175-177 | every observation of the episode gets the chosen goal as desired goal, and nothing else changes |
| `LazySampler.RowRewards` | stable_baselines3/her/replay_buffer.py:179-181 | one reward per step, computed from the goals of the observation that follows it; the initial observation's reward is dropped |
| `LazySampler.LazyRow` | stable_baselines3/her/replay_buffer.py:158-188 | a sampled row takes action and done at t and observations t and t + 1, relabelled with the future achieved goal when the Bernoulli draw says so; the reward matches the goals of the row's next observation |
| `LazySampler.RelabelledRowGoal` | stable_baselines3/her/replay_buffer.py:164-181 | a relabelled row pursues the achieved goal of a strictly later observation of its own episode and is rewarded for it |
| `LazySampler.NoGoalsNoRelabel` | stable_baselines3/her/replay_buffer.py:143-169 | with `n_sampled_goal = 0` the sampled row's observations are the stored ones |
| `HerBuffer.Init` | stable_baselines3/her/replay_buffer.py:58-102 | fails for `n_envs != 1`, for an unknown key, and for a zero episode length in per-episode mode; otherwise an empty, not-full buffer at `pos` 0 that keeps every argument (`buffer_size`, `max_episode_len`, the layout, the strategy of the key, `n_sampled_goal`) and has `buffer_size` (or `buffer_size // max_episode_len`) unwritten slots |
| `HerBuffer.AddTransition` | stable_baselines3/her/replay_buffer.py:263-273 | a flat write fills slot `pos` only; `pos` stays below the capacity and wraps to 0 exactly after the last slot, which is also when the buffer becomes full |
| `HerBuffer.AddTransitions` | stable_baselines3/her/replay_buffer.py:216-250 | the flat flush's writes, made one `_add_transition` call after another, are the ring's run of pushes from `pos`; the run fails with the out-of-range error exactly when there is a write and no slot |
| `HerBuffer.StoreEpisode` | stable_baselines3/her/replay_buffer.py:207-255 | a flush keeps the buffer consistent and never clears `full`; it succeeds exactly when the layout's error cases are absent |
| `HerBuffer.Add` | stable_baselines3/her/replay_buffer.py:104-124 | a non-terminal transition only joins the accumulator; a terminal one flushes the episode including it and empties the accumulator, failing exactly when the flush fails |
| `HerBuffer.StoreEpisodeFlatLayout` | stable_baselines3/her/replay_buffer.py:213-250 | a flat flush of L transitions makes L + (L - 1) n writes under FUTURE and L (1 + n) otherwise, from `pos` on; `pos` moves by that count modulo the capacity and `full` is set when the writes reach the end; each raw transition and each relabelled copy that later writes did not overwrite sits in its block's slot; every slot the writes did not reach is unchanged |
| `HerBuffer.WritesLand` | stable_baselines3/her/replay_buffer.py:216-250 | the block layout of the writes carries over to the ring slots they land in |
| `HerBuffer.AddAll` | stable_baselines3/her/replay_buffer.py:118-120 | `add` calls with transitions that do not end the episode never fail, leave the storage alone, and append the transitions to the accumulator in order |
| `HerBuffer.AddEpisodeSlot` | stable_baselines3/her/replay_buffer.py:251-290 | a terminal `add` in per-episode mode writes slot `pos` with the episode's observations, last next observation, actions, rewards, dones and length, and leaves every other slot unchanged; `pos` advances by one modulo the slot count and `full` is set exactly when the write lands in the last slot |
| `HerBuffer.FutureEpisodeScenario` | stable_baselines3/her/replay_buffer.py:213-250 | with capacity 100, FUTURE and n = 4, five `add` calls for a five-step episode give `pos` 21, a buffer not full, transition 0 in slot 0, the relabel of transition 3 with the goal achieved at step 4 in slot 19, the final transition in slot 20, and slots 21 onwards unwritten |
| `HerBuffer.UpperBoundIsWritten` | stable_baselines3/her/replay_buffer.py:202-204 | the sampling bound is at most the capacity, and a slot is below it exactly when it has been written |
| `HerBuffer.Sample` | stable_baselines3/her/replay_buffer.py:126-205 | fails on an empty sampling range when at least one index is drawn (`randint` with size 0 draws nothing and does not fail), and, in per-episode mode, for every strategy but FUTURE; otherwise one row per index, each read from a written slot: the stored transition in flat mode, the lazily relabelled row in per-episode mode |

## Left out

- Tensor conversion (`to_torch`), the device, and observation and reward normalisation (`_normalize_obs`, `_normalize_reward`, `VecNormalize`). They do not affect which data is sampled. `stable_baselines3/common/buffers.py` is not part of this model; its initial `pos` 0 and `full` False are written into `HerBuffer.Init`.
- The random number generator. Every draw is an argument of the operation that consumes it. Only the draw's range is constrained, so the uniformity of goal and index choices is not modelled.
- float32 storage and floating-point arithmetic. Vectors, rewards and the relabelling probability are real numbers.
- The `n_envs` axis of the arrays. `HerBuffer.Init` fails for `n_envs != 1`, so that axis always has length 1.
- The goal environment's `convert_obs_to_dict` and `convert_dict_to_obs`. Observations are kept in their dictionary form, which treats the two conversions as inverses.
- The widths of observation and action vectors. `HerTypes.ZeroObs` and `HerTypes.ZeroAction` stand for zero rows of any width.
- The buffer's state after an exception. An `Err` carries no buffer, so the model says nothing about the state the code leaves behind. The code leaves two things behind:
  - When a flat flush hits RANDOM's NotImplementedError, the first raw transition has already been written (lines 219 and 228).
  - When `_store_episode` raises, `add` never reaches line 124. The accumulator keeps the whole episode, so every later terminal `add` flushes it again. For example, a per-episode buffer that receives one episode longer than `max_episode_len` fails on every later terminal `add`.
- `HerBuffer.Init`: `buffer_size`, `max_episode_len` and `n_sampled_goal` are restricted to natural numbers. The code does not check its ints. A negative `n_sampled_goal` is accepted: flat mode then makes no copies, because `range(n)` at line 303 is empty. Lazy mode's `1 - 1/(1+n)` at line 144 divides by zero at n = -1 and exceeds 1 below that. A negative `buffer_size` makes `np.zeros` raise at line 84 or 88. A non-negative configuration is what the buffer is built for.
- NumPy broadcasting of episode arrays of unequal length. `EpisodeStore.WriteEpisode` requires the five arrays to be aligned, as the episode's own transposition always makes them.
- The `ValueError` branches for an unknown strategy value (lines 154-156 and 329-331). The enumeration has exactly four members, so those branches cannot be reached.
- The RANDOM strategy's goal search over the whole buffer. The code itself raises NotImplementedError there, and so does the model.

## Findings

| source | as written | input that shows it | evidently intended | confidence | as-written member | corrected member |
|---|---|---|---|---|---|---|
| stable_baselines3/her/replay_buffer.py:161 | `np.random.uniform(max_timestep_inds)` passes the episode lengths as the LOW end of the range, with the default high end 1.0. The timestep drawn is therefore in [1, steps]: it never picks step 0, and it is `steps`, one past the last transition, for every draw when the episode has one step and for a draw of 0.0 otherwise | an episode of 1 step: every draw gives timestep 1, which reads the padding row after the episode | a timestep uniform in [0, steps), i.e. `np.random.uniform(high=max_timestep_inds)` | not executed | `LazySampler.AsWrittenTimestep`, with `LazySampler.AsWrittenTimestepOneStep` | `LazySampler.Timestep` |

=== FILE: episode_store.dfy ===
/**
 The per-episode layout: one ring slot per episode, holding max_episode_len + 1
 observation rows and max_episode_len action, reward and done rows, plus the
 episode's real length (n_episode_steps).
 */
module EpisodeStore {
  import opened HerTypes
  import RingStore

  datatype EpisodeSlot = EpisodeSlot(obs: seq<Obs>, actions: seq<Vec>, rewards: seq<real>, dones: seq<bool>, steps: nat)

  /** The rows have the widths the buffer allocates for `maxLen`. */
  predicate Shaped(maxLen: nat, s: EpisodeSlot) {
    |s.obs| == maxLen + 1 && |s.actions| == maxLen && |s.rewards| == maxLen && |s.dones| == maxLen
  }

  /** A written slot: well shaped, holding an episode of 1..maxLen steps. */
  predicate WellFormed(maxLen: nat, s: EpisodeSlot) {
    Shaped(maxLen, s) && 1 <= s.steps <= maxLen
  }

  /** Every written slot of the ring is well formed. */
  ghost predicate SlotsWellFormed(maxLen: nat, r: RingStore.Ring<EpisodeSlot>) {
    forall i :: 0 <= i < |r.slots| && r.slots[i].Some? ==> WellFormed(maxLen, r.slots[i].value)
  }

  /** A slot as preallocated: every row zero. */
  function ZeroSlot(maxLen: nat): (s: EpisodeSlot)
    ensures Shaped(maxLen, s) && s.steps == 0
  {
    EpisodeSlot(seq(maxLen + 1, _ => ZeroObs), seq(maxLen, _ => ZeroAction), seq(maxLen, _ => 0.0), seq(maxLen, _ => false), 0)
  }

  /** What a slot holds before a write: its last episode, or zeros if never written. */
  function Previous(maxLen: nat, before: Option<EpisodeSlot>): EpisodeSlot {
    match before
    case Some(s) => s
    case None => ZeroSlot(maxLen)
  }

  /** A numpy observation array: one flat observation (one dimension) or a
      stack of observations (two dimensions). A stack of no rows is what
      np.array makes of an empty list, which has one dimension. */
  datatype ObsArray = Single(row: Obs) | Stacked(rows: seq<Obs>)

  function Rank(a: ObsArray): nat {
    match a
    case Single(_) => 1
    case Stacked(rows) => if |rows| == 0 then 1 else 2
  }

  /** The arrays of one episode as `_store_episode` hands them over. */
  datatype EpisodeArrays = EpisodeArrays(obs: ObsArray, nextObs: seq<Obs>, actions: seq<Vec>, rewards: seq<real>, dones: seq<bool>)

  /** The five arrays have one row per transition. */
  predicate Aligned(a: EpisodeArrays) {
    a.obs.Stacked? ==>
      && |a.nextObs| == |a.obs.rows|
      && |a.actions| == |a.obs.rows|
      && |a.rewards| == |a.obs.rows|
      && |a.dones| == |a.obs.rows|
  }

  /** Transposing the episode's transitions into field arrays (zip(*episode)). */
  function ZipEpisode(ep: seq<Transition>): (a: EpisodeArrays)
    ensures Aligned(a) && a.obs.Stacked? && |a.obs.rows| == |ep|
    ensures Rank(a.obs) >= 2 <==> |ep| > 0
    ensures forall t :: 0 <= t < |ep| ==>
      && a.obs.rows[t] == ep[t].obs
      && a.nextObs[t] == ep[t].nextObs
      && a.actions[t] == ep[t].action
      && a.rewards[t] == ep[t].reward
      && a.dones[t] == ep[t].done
  {
    EpisodeArrays(
      Stacked(seq(|ep|, t requires 0 <= t < |ep| => ep[t].obs)),
      seq(|ep|, t requires 0 <= t < |ep| => ep[t].nextObs),
      seq(|ep|, t requires 0 <= t < |ep| => ep[t].action),
      seq(|ep|, t requires 0 <= t < |ep| => ep[t].reward),
      seq(|ep|, t requires 0 <= t < |ep| => ep[t].done))
  }

  /** `prefix` written over the first rows of `base`, as a slice assignment
      `base[:len(prefix)] = prefix` does. */
  function Overlay<T>(prefix: seq<T>, base: seq<T>): (r: seq<T>)
    requires |prefix| <= |base|
    ensures |r| == |base|
    ensures forall t :: 0 <= t < |prefix| ==> r[t] == prefix[t]
    ensures forall t :: |prefix| <= t < |base| ==> r[t] == base[t]
  {
    prefix + base[|prefix|..]
  }

  /** The slot after writing an episode of L steps over `before`: the L
      observations and then the last next observation, L actions, rewards and
      dones, and L as the length; the rows past them keep what was there. */
  function MergeEpisode(maxLen: nat, before: Option<EpisodeSlot>, a: EpisodeArrays): (s: EpisodeSlot)
    requires a.obs.Stacked? && Aligned(a) && 1 <= |a.obs.rows| <= maxLen
    requires before.Some? ==> Shaped(maxLen, before.value)
    ensures WellFormed(maxLen, s) && s.steps == |a.obs.rows|
    ensures forall t :: 0 <= t < |a.obs.rows| ==>
      && s.obs[t] == a.obs.rows[t]
      && s.actions[t] == a.actions[t]
      && s.rewards[t] == a.rewards[t]
      && s.dones[t] == a.dones[t]
    ensures s.obs[|a.obs.rows|] == a.nextObs[|a.nextObs| - 1]
    ensures forall t :: |a.obs.rows| < t <= maxLen ==> s.obs[t] == Previous(maxLen, before).obs[t]
    ensures forall t :: |a.obs.rows| <= t < maxLen ==>
      && s.actions[t] == Previous(maxLen, before).actions[t]
      && s.rewards[t] == Previous(maxLen, before).rewards[t]
      && s.dones[t] == Previous(maxLen, before).dones[t]
  {
    var len := |a.obs.rows|;
    var prev := Previous(maxLen, before);
    var rows := a.obs.rows + [a.nextObs[len - 1]];
    assert forall t :: 0 <= t < len ==> rows[t] == a.obs.rows[t];
    EpisodeSlot(Overlay(rows, prev.obs), Overlay(a.actions, prev.actions), Overlay(a.rewards, prev.rewards),
                Overlay(a.dones, prev.dones), len)
  }

  /** The per-episode branch of `_add_transition`. It fails when the
      observations are not a stack, when the storage has no slot, and when
      the episode does not fit the slot's rows; otherwise the merged episode
      goes to slot `pos` through the shared ring write. */
  function WriteEpisode(maxLen: nat, r: RingStore.Ring<EpisodeSlot>, a: EpisodeArrays): (res: Result<RingStore.Ring<EpisodeSlot>>)
    requires RingStore.Valid(r) && SlotsWellFormed(maxLen, r) && Aligned(a)
    ensures res.Ok? <==> Rank(a.obs) >= 2 && |r.slots| > 0 && |a.obs.rows| <= maxLen
    ensures Rank(a.obs) < 2 ==> res == Err(NotAnEpisode)
    ensures Rank(a.obs) >= 2 && |r.slots| == 0 ==> res == Err(SlotOutOfRange)
    ensures Rank(a.obs) >= 2 && |r.slots| > 0 && |a.obs.rows| > maxLen ==> res == Err(EpisodeTooLong)
    ensures res.Ok? ==>
      && RingStore.Valid(res.value) && SlotsWellFormed(maxLen, res.value)
      && |res.value.slots| == |r.slots|
      && res.value.slots[r.pos] == Some(MergeEpisode(maxLen, r.slots[r.pos], a))
      && (forall i :: 0 <= i < |r.slots| && i != r.pos ==> res.value.slots[i] == r.slots[i])
      && res.value.pos == RingStore.WriteIndex(r.pos, |r.slots|, 1)
      && (res.value.full <==> r.full || r.pos + 1 == |r.slots|)
  {
    if Rank(a.obs) < 2 then Err(NotAnEpisode)
    else if |r.slots| == 0 then Err(SlotOutOfRange)
    else if |a.obs.rows| > maxLen then Err(EpisodeTooLong)
    else Ok(RingStore.Push(r, MergeEpisode(maxLen, r.slots[r.pos], a)))
  }
}

=== FILE: goal_selection.dfy ===
/**
 Choosing substitute goals for a transition of a finished episode. A random
 choice is an explicit argument (`draw`): the index that np.random.choice
 would have returned.
 */
module GoalSelection {
  import opened HerTypes

  /** The indices a strategy may take the substitute goal from, for transition
      `i` of an episode of length `len`. */
  predicate Selectable(strategy: GoalSelectionStrategy, i: nat, len: nat, k: nat) {
    match strategy
    case Future => i < k < len
    case Final => k + 1 == len
    case Episode => k < len
    case Random => false
  }

  /** What the random index draw can be: a uniform choice from
      [i + 1, len) for Future (when that range is not empty) and from
      [0, len) for Episode; Final and Random draw nothing. */
  predicate DrawFits(strategy: GoalSelectionStrategy, i: nat, len: nat, draw: nat) {
    match strategy
    case Future => i + 1 < len ==> i < draw < len
    case Episode => draw < len
    case Final => true
    case Random => true
  }

  /** The index the achieved goal is taken from. Future fails on the last
      transition (the range to choose from is empty) and Random is not
      implemented. */
  function SelectGoalIndex(strategy: GoalSelectionStrategy, len: nat, i: nat, draw: nat): (r: Result<nat>)
    requires i < len && DrawFits(strategy, i, len, draw)
    ensures r.Ok? <==> strategy != Random && (strategy == Future ==> i + 1 < len)
    ensures r.Ok? ==> Selectable(strategy, i, len, r.value)
    ensures r.Ok? && (strategy == Future || strategy == Episode) ==> r.value == draw
    ensures strategy == Random ==> r == Err(NotImplemented)
    ensures strategy == Future && i + 1 == len ==> r == Err(EmptyChoice)
  {
    match strategy
    case Future => if i + 1 < len then Ok(draw) else Err(EmptyChoice)
    case Final => Ok(len - 1)
    case Episode => Ok(draw)
    case Random => Err(NotImplemented)
  }

  /** `g` is the achieved goal (read from the observation, not the next
      observation) of a transition the strategy may select for transition `i`. */
  ghost predicate GoalFrom(strategy: GoalSelectionStrategy, ep: seq<Transition>, i: nat, g: Vec) {
    exists k: nat :: Selectable(strategy, i, |ep|, k) && ep[k].obs.achievedGoal == g
  }

  function SampleAchievedGoal(strategy: GoalSelectionStrategy, ep: seq<Transition>, i: nat, draw: nat): (r: Result<Vec>)
    requires i < |ep| && DrawFits(strategy, i, |ep|, draw)
    ensures r.Ok? <==> strategy != Random && (strategy == Future ==> i + 1 < |ep|)
    ensures r.Ok? ==> GoalFrom(strategy, ep, i, r.value)
    ensures r.Ok? && (strategy == Future || strategy == Episode) ==> draw < |ep| && r.value == ep[draw].obs.achievedGoal
    ensures r.Ok? && strategy == Final ==> r.value == ep[|ep| - 1].obs.achievedGoal
  {
    var k :- SelectGoalIndex(strategy, |ep|, i, draw);
    Ok(ep[k].obs.achievedGoal)
  }

  /** One goal per draw, in draw order; with no draw nothing is selected, so
      not even Random fails. */
  function SampleAchievedGoals(strategy: GoalSelectionStrategy, ep: seq<Transition>, i: nat, draws: seq<nat>): (r: Result<seq<Vec>>)
    requires i < |ep|
    requires forall j :: 0 <= j < |draws| ==> DrawFits(strategy, i, |ep|, draws[j])
    ensures r.Ok? <==> |draws| == 0 || (strategy != Random && (strategy == Future ==> i + 1 < |ep|))
    ensures r.Ok? ==> |r.value| == |draws|
    ensures r.Ok? ==> forall j :: 0 <= j < |draws| ==> GoalFrom(strategy, ep, i, r.value[j])
    ensures r.Ok? && (strategy == Future || strategy == Episode) ==>
      forall j :: 0 <= j < |draws| ==> draws[j] < |ep| && r.value[j] == ep[draws[j]].obs.achievedGoal
    decreases |draws|
  {
    if draws == [] then Ok([])
    else
      var g := SampleAchievedGoal(strategy, ep, i, draws[0]);
      var rest := SampleAchievedGoals(strategy, ep, i, draws[1..]);
      match (g, rest)
      case (Err(e), _) => Err(e)
      case (Ok(_), Err(e)) => Err(e)
      case (Ok(first), Ok(others)) => Ok([first] + others)
  }
}

=== FILE: her_buffer.dfy ===
/**
 The Hindsight Experience Replay buffer: construction, the episode
 accumulator (`Add`), flushing a finished episode (`StoreEpisode`) in either
 layout, and sampling a batch (`Sample`). The buffer is an immutable value;
 every operation returns the next buffer or the error the code raises.
 */
module HerBuffer {
  import opened HerTypes
  import RingStore
  import opened GoalSelection
  import opened Relabel
  import opened EpisodeStore
  import opened LazySampler

  datatype Config = Config(
    bufferSize: nat,
    maxEpisodeLen: nat,
    addHerWhileSampling: bool,
    strategy: GoalSelectionStrategy,
    nSampledGoal: nat)

  /** The division the per-episode layout needs is defined. */
  predicate ConfigOk(c: Config) {
    c.addHerWhileSampling ==> c.maxEpisodeLen > 0
  }

  /** Number of slots: transitions in flat mode, episodes in per-episode mode. */
  function Capacity(c: Config): nat
    requires ConfigOk(c)
  {
    if c.addHerWhileSampling then c.bufferSize / c.maxEpisodeLen else c.bufferSize
  }

  /** Flat mode (relabel when storing) keeps one slot per transition;
      per-episode mode (relabel when sampling) keeps one slot per episode. */
  datatype Storage =
    | Flat(transitions: RingStore.Ring<Transition>)
    | PerEpisode(episodes: RingStore.Ring<EpisodeSlot>)

  datatype Buffer = Buffer(config: Config, storage: Storage, episodeTransitions: seq<Transition>)

  function Pos(b: Buffer): nat {
    match b.storage
    case Flat(r) => r.pos
    case PerEpisode(r) => r.pos
  }

  function Full(b: Buffer): bool {
    match b.storage
    case Flat(r) => r.full
    case PerEpisode(r) => r.full
  }

  function SlotCount(b: Buffer): nat {
    match b.storage
    case Flat(r) => |r.slots|
    case PerEpisode(r) => |r.slots|
  }

  /** Slot `i` has been written at least once. */
  predicate Written(b: Buffer, i: nat)
    requires i < SlotCount(b)
  {
    match b.storage
    case Flat(r) => r.slots[i].Some?
    case PerEpisode(r) => r.slots[i].Some?
  }

  /** The layout follows the mode, the ring is consistent, it has the mode's
      capacity, and every written episode slot holds a whole episode. */
  ghost predicate Valid(b: Buffer) {
    && ConfigOk(b.config)
    && match b.storage
       case Flat(r) =>
         && !b.config.addHerWhileSampling
         && RingStore.Valid(r)
         && |r.slots| == Capacity(b.config)
       case PerEpisode(r) =>
         && b.config.addHerWhileSampling
         && RingStore.Valid(r)
         && |r.slots| == Capacity(b.config)
         && SlotsWellFormed(b.config.maxEpisodeLen, r)
  }

  /** The constructor. It fails when more than one environment is asked for,
      when the strategy key is unknown, and (per-episode mode only) when the
      capacity division has a zero episode length. */
  function Init(bufferSize: nat, maxEpisodeLen: nat, nEnvs: int, addHerWhileSampling: bool,
                strategyKey: string, nSampledGoal: nat): (r: Result<Buffer>)
    ensures r.Ok? <==>
      nEnvs == 1 && KeyToGoalStrategy(strategyKey).Some? && (addHerWhileSampling ==> maxEpisodeLen > 0)
    ensures nEnvs != 1 ==> r == Err(MultipleEnvs(nEnvs))
    ensures nEnvs == 1 && KeyToGoalStrategy(strategyKey).None? ==> r == Err(UnknownStrategy(strategyKey))
    ensures r.Ok? ==>
      && Valid(r.value)
      && Pos(r.value) == 0 && !Full(r.value)
      && r.value.episodeTransitions == []
      && StrategyKey(r.value.config.strategy) == strategyKey
      && r.value.config.addHerWhileSampling == addHerWhileSampling
      && r.value.config.nSampledGoal == nSampledGoal
      && r.value.config.bufferSize == bufferSize && r.value.config.maxEpisodeLen == maxEpisodeLen
      && SlotCount(r.value) == (if addHerWhileSampling then bufferSize / maxEpisodeLen else bufferSize)
      && (forall i :: 0 <= i < SlotCount(r.value) ==> !Written(r.value, i))
  {
    if nEnvs != 1 then Err(MultipleEnvs(nEnvs))
    else match KeyToGoalStrategy(strategyKey)
      case None => Err(UnknownStrategy(strategyKey))
      case Some(strategy) =>
        if addHerWhileSampling && maxEpisodeLen == 0 then Err(ZeroEpisodeLength)
        else
          var config := Config(bufferSize, maxEpisodeLen, addHerWhileSampling, strategy, nSampledGoal);
          var storage :=
            if addHerWhileSampling then PerEpisode(RingStore.Empty(Capacity(config)))
            else Flat(RingStore.Empty(Capacity(config)));
          Ok(Buffer(config, storage, []))
  }

  /** The flat branch of `_add_transition`: the transition goes to slot `pos`,
      which then advances and wraps; storage of capacity 0 has no slot. */
  function AddTransition(b: Buffer, t: Transition): (r: Result<Buffer>)
    requires Valid(b) && b.storage.Flat?
    ensures r.Ok? <==> SlotCount(b) > 0
    ensures r.Err? ==> r.error == SlotOutOfRange
    ensures r.Ok? ==>
      && Valid(r.value)
      && r.value.config == b.config && r.value.episodeTransitions == b.episodeTransitions
      && r.value.storage.transitions.slots[Pos(b)] == Some(t)
      && (forall i :: 0 <= i < SlotCount(b) && i != Pos(b) ==>
            r.value.storage.transitions.slots[i] == b.storage.transitions.slots[i])
      && Pos(r.value) < SlotCount(b)
      && (Pos(r.value) == 0 <==> Pos(b) + 1 == SlotCount(b))
      && (Full(r.value) <==> Full(b) || Pos(b) + 1 == SlotCount(b))
  {
    var ring := b.storage.transitions;
    if |ring.slots| == 0 then Err(SlotOutOfRange)
    else Ok(b.(storage := Flat(RingStore.Push(ring, t))))
  }

  /** Flat writes in order, each through `AddTransition`: the loop of
      `_add_transition` calls a flat flush makes. The run is the ring's own
      run of pushes, and it fails only when there is a write but no slot. */
  function AddTransitions(b: Buffer, ws: seq<Transition>): (r: Result<Buffer>)
    requires Valid(b) && b.storage.Flat?
    ensures r.Ok? <==> |ws| == 0 || SlotCount(b) > 0
    ensures r.Err? ==> r.error == SlotOutOfRange
    ensures r.Ok? ==>
      && Valid(r.value)
      && r.value == b.(storage := Flat(RingStore.PushAll(b.storage.transitions, ws)))
    decreases |ws|
  {
    if ws == [] then Ok(b)
    else
      match AddTransitions(b, ws[..|ws| - 1])
      case Err(e) => Err(e)
      case Ok(b') => AddTransition(b', ws[|ws| - 1])
  }

  /** Whether the random draws for flushing the accumulated episode fit it. */
  predicate StoreDrawsFit(b: Buffer, draws: seq<seq<nat>>) {
    !b.config.addHerWhileSampling ==>
      DrawsFit(b.config.strategy, b.config.nSampledGoal, b.episodeTransitions, draws)
  }

  /** `_store_episode`: flushes the accumulated episode. Flat mode writes every
      transition followed by its relabelled copies; per-episode mode writes
      the whole episode into one slot. The accumulator itself is left as is. */
  function StoreEpisode(b: Buffer, env: GoalEnv, draws: seq<seq<nat>>): (r: Result<Buffer>)
    requires Valid(b) && StoreDrawsFit(b, draws)
    ensures r.Ok? ==> Valid(r.value) && r.value.config == b.config && r.value.episodeTransitions == b.episodeTransitions
    ensures r.Ok? && Full(b) ==> Full(r.value)
    ensures !b.config.addHerWhileSampling ==>
      (r.Ok? <==> |b.episodeTransitions| == 0
                  || (SlotCount(b) > 0 && (b.config.strategy != Random || b.config.nSampledGoal == 0)))
    ensures b.config.addHerWhileSampling ==>
      (r.Ok? <==> 0 < |b.episodeTransitions| <= b.config.maxEpisodeLen && SlotCount(b) > 0)
    ensures b.config.addHerWhileSampling && b.episodeTransitions == [] ==> r == Err(EmptyEpisode)
  {
    var ep := b.episodeTransitions;
    match b.storage
    case Flat(ring) =>
      if |ring.slots| == 0 && |ep| > 0 then Err(SlotOutOfRange)
      else
        var writes := EpisodeWrites(env, b.config.strategy, b.config.nSampledGoal, ep, draws, 0);
        (match writes
         case Err(e) => Err(e)
         case Ok(ws) => AddTransitions(b, ws))
    case PerEpisode(ring) =>
      if ep == [] then Err(EmptyEpisode)
      else
        var written := WriteEpisode(b.config.maxEpisodeLen, ring, ZipEpisode(ep));
        match written
        case Err(e) => Err(e)
        case Ok(ring') => Ok(b.(storage := PerEpisode(ring')))
  }

  /** `add`: the transition joins the accumulated episode; when it ends the
      episode, the episode is flushed and the accumulator emptied. */
  function Add(b: Buffer, env: GoalEnv, t: Transition, draws: seq<seq<nat>>): (r: Result<Buffer>)
    requires Valid(b)
    requires t.done ==> StoreDrawsFit(b.(episodeTransitions := b.episodeTransitions + [t]), draws)
    ensures r.Ok? ==> Valid(r.value) && r.value.config == b.config
    ensures r.Ok? && Full(b) ==> Full(r.value)
    ensures !t.done ==> r.Ok? && r.value.storage == b.storage
                        && r.value.episodeTransitions == b.episodeTransitions + [t]
    ensures t.done ==>
      var flushed := StoreEpisode(b.(episodeTransitions := b.episodeTransitions + [t]), env, draws);
      && (r.Ok? <==> flushed.Ok?)
      && (r.Ok? ==> r.value.episodeTransitions == [] && r.value.storage == flushed.value.storage)
  {
    var b' := b.(episodeTransitions := b.episodeTransitions + [t]);
    if !t.done then Ok(b')
    else
      match StoreEpisode(b', env, draws)
      case Err(e) => Err(e)
      case Ok(stored) => Ok(stored.(episodeTransitions := []))
  }

  /** What a flat flush of `ep` leaves in the ring: `count` writes from the
      old position on, wrapping around. The position advances by `count`, the
      ring becomes full when the writes reach its end, each raw transition
      sits at the start of its block of n + 1 writes and is followed by its
      relabelled copies (those of them later writes have not overwritten),
      and every slot no write reached keeps its content. */
  ghost predicate FlushLayout(env: GoalEnv, strategy: GoalSelectionStrategy, n: nat, ep: seq<Transition>,
                              before: RingStore.Ring<Transition>, after: RingStore.Ring<Transition>, count: nat)
    requires |before.slots| > 0
  {
    var c := |before.slots|;
    && |after.slots| == c
    && after.pos == RingStore.WriteIndex(before.pos, c, count)
    && (after.full <==> before.full || before.pos + count >= c)
    && (forall m :: 0 <= m < |ep| && count <= BlockStart(m, n) + c ==>
          after.slots[RingStore.WriteIndex(before.pos, c, BlockStart(m, n))] == Some(ep[m]))
    && (forall m, j ::
          (0 <= m < |ep| && 0 <= j < n && !(strategy == Future && m == |ep| - 1) && count <= CopySlot(m, n, j) + c) ==>
          && after.slots[RingStore.WriteIndex(before.pos, c, CopySlot(m, n, j))].Some?
          && IsRelabelOf(env, strategy, ep, m, after.slots[RingStore.WriteIndex(before.pos, c, CopySlot(m, n, j))].value))
    && (forall i :: 0 <= i < c && !RingStore.Touched(before.pos, c, count, i) ==> after.slots[i] == before.slots[i])
  }

  /** A flat flush of an episode of L transitions makes WriteCount writes
      (L + (L - 1) n under Future, L (1 + n) otherwise) and leaves them in the
      layout FlushLayout describes. */
  lemma StoreEpisodeFlatLayout(b: Buffer, env: GoalEnv, draws: seq<seq<nat>>)
    requires Valid(b) && b.storage.Flat? && StoreDrawsFit(b, draws) && SlotCount(b) > 0
    requires StoreEpisode(b, env, draws).Ok?
    ensures FlushLayout(env, b.config.strategy, b.config.nSampledGoal, b.episodeTransitions, b.storage.transitions,
                        StoreEpisode(b, env, draws).value.storage.transitions,
                        WriteCount(b.config.strategy, b.config.nSampledGoal, |b.episodeTransitions|))
  {
    var ring := b.storage.transitions;
    var ep := b.episodeTransitions;
    var strategy := b.config.strategy;
    var n := b.config.nSampledGoal;
    FlatFlushIsPushAll(b, env, draws);
    var ws := EpisodeWrites(env, strategy, n, ep, draws, 0).value;
    EpisodeWriteCount(env, strategy, n, ep, draws, 0);
    EpisodeWritesRaw(env, strategy, n, ep, draws, 0);
    EpisodeWritesCopies(env, strategy, n, ep, draws, 0);
    WritesLand(ring, ws, env, strategy, n, ep);
  }

  /** A successful flat flush is the run of the episode's writes. */
  lemma FlatFlushIsPushAll(b: Buffer, env: GoalEnv, draws: seq<seq<nat>>)
    requires Valid(b) && b.storage.Flat? && StoreDrawsFit(b, draws) && SlotCount(b) > 0
    requires StoreEpisode(b, env, draws).Ok?
    ensures EpisodeWrites(env, b.config.strategy, b.config.nSampledGoal, b.episodeTransitions, draws, 0).Ok?
    ensures StoreEpisode(b, env, draws).value.storage.transitions
      == RingStore.PushAll(b.storage.transitions,
                           EpisodeWrites(env, b.config.strategy, b.config.nSampledGoal, b.episodeTransitions, draws, 0).value)
  {
  }

  /** The block layout of a run of writes carries over to the ring slots the
      writes land in. */
  lemma WritesLand(ring: RingStore.Ring<Transition>, ws: seq<Transition>, env: GoalEnv,
                   strategy: GoalSelectionStrategy, n: nat, ep: seq<Transition>)
    requires RingStore.Valid(ring) && |ring.slots| > 0
    requires RawFrom(ep, n, 0, ws) && CopiesFrom(env, strategy, ep, n, 0, ws)
    ensures FlushLayout(env, strategy, n, ep, ring, RingStore.PushAll(ring, ws), |ws|)
  {
    RingStore.PushAllPosition(ring, ws);
    RingStore.PushAllContents(ring, ws);
    var c := |ring.slots|;
    var after := RingStore.PushAll(ring, ws);
    forall m | 0 <= m < |ep| && |ws| <= BlockStart(m, n) + c
      ensures after.slots[RingStore.WriteIndex(ring.pos, c, BlockStart(m, n))] == Some(ep[m])
    {
      assert ws[BlockStart(m, n)] == ep[0 + m];
    }
    forall m, j | 0 <= m < |ep| && 0 <= j < n && !(strategy == Future && m == |ep| - 1) && |ws| <= CopySlot(m, n, j) + c
      ensures && after.slots[RingStore.WriteIndex(ring.pos, c, CopySlot(m, n, j))].Some?
              && IsRelabelOf(env, strategy, ep, m, after.slots[RingStore.WriteIndex(ring.pos, c, CopySlot(m, n, j))].value)
    {
      assert 0 + m == m;
      assert IsRelabelOf(env, strategy, ep, 0 + m, ws[CopySlot(m, n, j)]);
    }
  }

  /** A per-episode flush of L transitions fills slot `pos`: observation rows
      0..L-1 are the transitions' observations, row L is the last next
      observation, the first L action, reward and done rows are the
      episode's, the slot records L steps, and every other slot is unchanged;
      `pos` and `full` move as for one flat write. */
  lemma AddEpisodeSlot(b: Buffer, env: GoalEnv, t: Transition, draws: seq<seq<nat>>)
    requires Valid(b) && b.storage.PerEpisode? && t.done
    requires Add(b, env, t, draws).Ok?
    ensures var ep := b.episodeTransitions + [t];
      var after := Add(b, env, t, draws).value.storage.episodes;
      && Pos(b) < SlotCount(b)
      && after.slots[Pos(b)].Some?
      && after.slots[Pos(b)].value.steps == |ep|
      && (forall k :: 0 <= k < |ep| ==>
            && after.slots[Pos(b)].value.obs[k] == ep[k].obs
            && after.slots[Pos(b)].value.actions[k] == ep[k].action
            && after.slots[Pos(b)].value.rewards[k] == ep[k].reward
            && after.slots[Pos(b)].value.dones[k] == ep[k].done)
      && after.slots[Pos(b)].value.obs[|ep|] == t.nextObs
      && (forall i :: 0 <= i < SlotCount(b) && i != Pos(b) ==> after.slots[i] == b.storage.episodes.slots[i])
      && after.pos == RingStore.WriteIndex(Pos(b), SlotCount(b), 1)
      && (after.full <==> Full(b) || Pos(b) + 1 == SlotCount(b))
  {
  }

  /** Transitions that do not end the episode only join the accumulator,
      one `add` after another, and never fail. */
  function AddAll(b: Buffer, env: GoalEnv, ts: seq<Transition>): (r: Result<Buffer>)
    requires Valid(b) && forall k :: 0 <= k < |ts| ==> !ts[k].done
    ensures r.Ok? && Valid(r.value) && r.value.config == b.config && r.value.storage == b.storage
    ensures r.Ok? ==> r.value.episodeTransitions == b.episodeTransitions + ts
    decreases |ts|
  {
    if ts == [] then Ok(b)
    else
      var before := AddAll(b, env, ts[..|ts| - 1]);
      Add(before.value, env, ts[|ts| - 1], [])
  }

  /** A flat FUTURE buffer with capacity 100, n = 4 and one
      five-step episode: 5 + 4 * 4 = 21 writes, so `pos` is 21 and the buffer
      is not full; slot 0 holds the first transition, slot 19 the last copy
      of transition 3 (whose only future goal is the one achieved at step 4),
      slot 20 the final transition as it happened, and slots 21.. are unwritten. */
  lemma FutureEpisodeScenario(env: GoalEnv, ep: seq<Transition>, draws: seq<seq<nat>>)
    requires |ep| == 5 && ep[4].done && forall k :: 0 <= k < 4 ==> !ep[k].done
    requires DrawsFit(Future, 4, ep, draws)
    ensures Init(100, 5, 1, false, "future", 4).Ok?
    ensures var b4 := AddAll(Init(100, 5, 1, false, "future", 4).value, env, ep[..4]).value;
      && b4.episodeTransitions + [ep[4]] == ep
      && var r := Add(b4, env, ep[4], draws);
      && r.Ok?
      && Pos(r.value) == 21 && !Full(r.value)
      && r.value.episodeTransitions == []
      && r.value.storage.transitions.slots[0] == Some(ep[0])
      && r.value.storage.transitions.slots[19] == Some(RelabelTransition(env, ep[3], ep[4].obs.achievedGoal))
      && r.value.storage.transitions.slots[20] == Some(ep[4])
      && (forall i :: 21 <= i < 100 ==> !Written(r.value, i))
  {
    var b0 := Init(100, 5, 1, false, "future", 4).value;
    var b4 := AddAll(b0, env, ep[..4]).value;
    assert b4.episodeTransitions + [ep[4]] == ep;
    var full := b4.(episodeTransitions := ep);
    StoreEpisodeFlatLayout(full, env, draws);
    ScenarioSlots(env, ep, b0.storage.transitions, StoreEpisode(full, env, draws).value.storage.transitions);
  }

  /** The slots of that five-step FUTURE flush, read off the flush layout. */
  lemma ScenarioSlots(env: GoalEnv, ep: seq<Transition>, before: RingStore.Ring<Transition>, after: RingStore.Ring<Transition>)
    requires |ep| == 5 && |before.slots| == 100 && before.pos == 0 && !before.full
    requires forall i :: 0 <= i < 100 ==> before.slots[i].None?
    requires FlushLayout(env, Future, 4, ep, before, after, WriteCount(Future, 4, 5))
    ensures after.pos == 21 && !after.full
    ensures after.slots[0] == Some(ep[0])
    ensures after.slots[19] == Some(RelabelTransition(env, ep[3], ep[4].obs.achievedGoal))
    ensures after.slots[20] == Some(ep[4])
    ensures forall i :: 21 <= i < 100 ==> after.slots[i].None?
  {
    assert WriteCount(Future, 4, 5) == 21;
    assert BlockStart(0, 4) == 0 && BlockStart(4, 4) == 20 && CopySlot(3, 4, 3) == 19;
    assert RingStore.WriteIndex(0, 100, 0) == 0;
    assert RingStore.WriteIndex(0, 100, 20) == 20;
    assert RingStore.WriteIndex(0, 100, 19) == 19;
    var w := after.slots[19].value;
    assert IsRelabelOf(env, Future, ep, 3, w);
    var k: nat :| Selectable(Future, 3, 5, k) && w == RelabelTransition(env, ep[3], ep[k].obs.achievedGoal);
    assert k == 4;
    forall i | 21 <= i < 100
      ensures after.slots[i].None?
    {
      if RingStore.Touched(0, 100, 21, i) {
        var j :| 0 <= j < 21 && RingStore.WriteIndex(0, 100, j) == i;
        RingStore.ModOfSmall(j, 100);
        assert false;
      }
    }
  }

  /** The slots sampling may draw from: all of them once the buffer is full,
      otherwise those below `pos`. */
  function UpperBound(b: Buffer): nat
    requires ConfigOk(b.config)
  {
    if Full(b) then Capacity(b.config) else Pos(b)
  }

  /** Exactly the slots below the sampling bound have been written, so
      sampling never reads a slot nobody wrote. */
  lemma UpperBoundIsWritten(b: Buffer)
    requires Valid(b)
    ensures UpperBound(b) <= SlotCount(b)
    ensures forall i :: 0 <= i < SlotCount(b) ==> (Written(b, i) <==> i < UpperBound(b))
  {
  }

  /** The random draws of one sample call: the slot indices, and for the
      per-episode layout the draws of each batch row. */
  datatype SampleDraws = SampleDraws(batchInds: seq<nat>, rowDraws: seq<RowDraws>)

  predicate SampleDrawsFit(b: Buffer, batchSize: nat, d: SampleDraws)
    requires ConfigOk(b.config)
  {
    && |d.batchInds| == batchSize
    && (UpperBound(b) > 0 ==> forall k :: 0 <= k < batchSize ==> d.batchInds[k] < UpperBound(b))
    && (b.config.addHerWhileSampling ==>
          |d.rowDraws| == batchSize && forall k :: 0 <= k < batchSize ==> RowDrawsFit(d.rowDraws[k]))
  }

  function TransitionRow(t: Transition): Row {
    Row(t.obs, t.action, t.nextObs, t.done, t.reward)
  }

  /** `sample` followed by `_get_samples`, one Row per batch index. Flat mode
      reads the stored transitions as they are; per-episode mode (Future only)
      relabels at sample time. */
  function Sample(b: Buffer, env: GoalEnv, batchSize: nat, d: SampleDraws): (r: Result<seq<Row>>)
    requires Valid(b) && SampleDrawsFit(b, batchSize, d)
    ensures r.Err? <==>
      (UpperBound(b) == 0 && batchSize > 0) || (b.config.addHerWhileSampling && b.config.strategy != Future)
    ensures UpperBound(b) == 0 && batchSize > 0 ==> r == Err(EmptySampleRange)
    ensures (UpperBound(b) > 0 || batchSize == 0) && b.config.addHerWhileSampling && b.config.strategy != Future
            ==> r == Err(NotImplemented)
    ensures r.Ok? ==> |r.value| == batchSize
    ensures r.Ok? ==> forall k :: 0 <= k < batchSize ==> d.batchInds[k] < SlotCount(b) && Written(b, d.batchInds[k])
    ensures r.Ok? && b.storage.Flat? ==>
      forall k :: 0 <= k < batchSize ==>
        b.storage.transitions.slots[d.batchInds[k]].Some?
        && r.value[k] == TransitionRow(b.storage.transitions.slots[d.batchInds[k]].value)
    ensures r.Ok? && b.storage.PerEpisode? ==>
      forall k :: 0 <= k < batchSize ==>
        b.storage.episodes.slots[d.batchInds[k]].Some?
        && r.value[k] == LazyRow(env, b.config.nSampledGoal, b.config.maxEpisodeLen,
                                 b.storage.episodes.slots[d.batchInds[k]].value, d.rowDraws[k])
  {
    if UpperBound(b) == 0 && batchSize > 0 then Err(EmptySampleRange)
    else
      UpperBoundIsWritten(b);
      match b.storage
      case Flat(ring) =>
        Ok(seq(batchSize, k requires 0 <= k < batchSize => TransitionRow(ring.slots[d.batchInds[k]].value)))
      case PerEpisode(ring) =>
        if b.config.strategy != Future then Err(NotImplemented)
        else
          Ok(seq(batchSize, k requires 0 <= k < batchSize =>
            LazyRow(env, b.config.nSampledGoal, b.config.maxEpisodeLen, ring.slots[d.batchInds[k]].value, d.rowDraws[k])))
  }
}

=== FILE: her_types.dfy ===
/**
 Shared vocabulary of the Hindsight Experience Replay buffer: observations in
 their dictionary form, transitions, the goal environment's reward function,
 the goal-selection strategies and the errors the buffer can raise.
 */
module HerTypes {

  /** A flat numeric vector: an observation part, a goal or an action. */
  type Vec = seq<real>

  datatype Option<+T> = None | Some(value: T)

  /** The exceptions the buffer raises, one constructor per distinct cause. */
  datatype Error =
    | MultipleEnvs(nEnvs: int)       // the n_envs == 1 assertion fails
    | UnknownStrategy(key: string)   // the strategy key is not in KEY_TO_GOAL_STRATEGY
    | ZeroEpisodeLength              // buffer_size // max_episode_len with max_episode_len == 0
    | NotImplemented                 // a goal-selection strategy the code leaves unimplemented
    | EmptyChoice                    // a random choice from an empty index range
    | SlotOutOfRange                 // a write into storage of capacity 0
    | NotAnEpisode                   // a per-episode write whose observations are not a stack
    | EpisodeTooLong                 // a per-episode write longer than max_episode_len
    | EmptyEpisode                   // storing an episode that has no transition
    | EmptySampleRange               // drawing indices from [0, 0)

  datatype Result<+T> = Ok(value: T) | Err(error: Error) {
    predicate IsFailure() {
      Err?
    }

    function PropagateFailure<U>(): Result<U>
      requires Err?
    {
      Err(error)
    }

    function Extract(): T
      requires Ok?
    {
      value
    }
  }

  /** An observation as the goal environment's dictionary view presents it. */
  datatype Obs = Obs(observation: Vec, achievedGoal: Vec, desiredGoal: Vec)

  /** The content of a storage row nobody has written yet (numpy's zero fill;
      the vector widths belong to the observation space, which is not modelled). */
  const ZeroObs: Obs := Obs([], [], [])
  const ZeroAction: Vec := []

  datatype Transition = Transition(obs: Obs, nextObs: Obs, action: Vec, reward: real, done: bool)

  /** One row of a sampled batch: (observation, action, next observation, done, reward). */
  datatype Row = Row(obs: Obs, action: Vec, nextObs: Obs, done: bool, reward: real)

  /** The goal environment's reward function, compute_reward(achieved, desired, None). */
  datatype GoalEnv = GoalEnv(computeReward: (Vec, Vec) -> real)

  datatype GoalSelectionStrategy = Future | Final | Episode | Random

  /** The key under which each strategy is registered. */
  function StrategyKey(s: GoalSelectionStrategy): string {
    match s
    case Future => "future"
    case Final => "final"
    case Episode => "episode"
    case Random => "random"
  }

  /** Looking a strategy up by key; None stands for the KeyError of an unknown key. */
  function KeyToGoalStrategy(key: string): (r: Option<GoalSelectionStrategy>)
    ensures r.Some? <==> key in {"future", "final", "episode", "random"}
    ensures r.Some? ==> StrategyKey(r.value) == key
  {
    if key == "future" then Some(Future)
    else if key == "final" then Some(Final)
    else if key == "episode" then Some(Episode)
    else if key == "random" then Some(Random)
    else None
  }

  /** Every strategy is reachable from its own key. */
  lemma KeyRoundTrip(s: GoalSelectionStrategy)
    ensures KeyToGoalStrategy(StrategyKey(s)) == Some(s)
  {
    match s
    case Future =>
    case Final =>
    case Episode =>
    case Random =>
  }
}

=== FILE: lazy_sampler.dfy ===
/**
 Sample-time relabelling of the per-episode layout (strategy Future only).
 Every random draw is an explicit argument: a real number in [0, 1), as
 np.random.uniform returns it.
 */
module LazySampler {
  import opened HerTypes
  import opened EpisodeStore

  /** A uniform draw from [0, 1). */
  predicate UnitDraw(u: real) {
    0.0 <= u < 1.0
  }

  /** The probability that a sampled row is relabelled, 1 - 1 / (1 + n). */
  function FutureP(n: nat): real {
    1.0 - 1.0 / (1.0 + n as real)
  }

  lemma FutureProbability(n: nat)
    ensures FutureP(n) == (n as real) / ((n + 1) as real)
    ensures 0.0 <= FutureP(n) < 1.0
    ensures n == 0 <==> FutureP(n) == 0.0
  {
    var d := 1.0 + n as real;
    var q := 1.0 / d;
    assert q * d == 1.0;
    assert 0.0 < q <= 1.0;
    assert (n as real) / d == 1.0 - q by {
      assert (1.0 - q) * d == n as real;
    }
  }

  /** A row is relabelled when its Bernoulli draw falls below FutureP. */
  predicate Relabels(n: nat, u: real) {
    u < FutureP(n)
  }

  lemma MulNonneg(a: real, b: real)
    requires 0.0 <= a && 0.0 <= b
    ensures 0.0 <= a * b
  {
  }

  lemma MulPos(a: real, b: real)
    requires 0.0 < a && 0.0 < b
    ensures 0.0 < a * b
  {
  }

  lemma MulDistrib(a: real, b: real, c: real)
    ensures a * (b - c) == a * b - a * c
  {
  }

  /** Scaling a unit draw by k and flooring gives an index in [0, k). */
  lemma ScaledFloor(u: real, k: nat)
    requires UnitDraw(u) && k > 0
    ensures 0 <= (u * k as real).Floor < k
  {
    var kr := k as real;
    var x := u * kr;
    MulNonneg(u, kr);
    MulPos(kr, 1.0 - u);
    MulDistrib(kr, 1.0, u);
    assert kr * u == x;
    assert 0.0 <= x < kr;
  }

  /** The timestep of a sampled row: a uniform index in [0, steps). */
  function Timestep(steps: nat, u: real): (t: nat)
    requires UnitDraw(u) && steps > 0
    ensures t < steps
  {
    ScaledFloor(u, steps);
    (u * steps as real).Floor
  }

  /** The timestep as the call at replay_buffer.py:161, np.random.uniform(steps), computes it:
      numpy takes `steps` as the LOW end of the range and 1.0 as the high end. */
  function AsWrittenTimestep(steps: nat, u: real): int
    requires UnitDraw(u)
  {
    (steps as real + (1.0 - steps as real) * u).Floor
  }

  /** The as-written timestep is never 0. It equals `steps`, one past the last
      real transition, exactly when the episode has one step or the draw is
      0.0. */
  lemma AsWrittenTimestepRange(steps: nat, u: real)
    requires UnitDraw(u) && steps > 0
    ensures 1 <= AsWrittenTimestep(steps, u) <= steps
    ensures AsWrittenTimestep(steps, u) == steps <==> steps == 1 || u == 0.0
  {
    var x := steps as real + (1.0 - steps as real) * u;
    var m := steps as real - 1.0;
    MulNonneg(m, u);
    MulNonneg(m, 1.0 - u);
    MulDistrib(m, 1.0, u);
    assert (1.0 - steps as real) * u == -(m * u);
    assert x == steps as real - m * u;
    assert 1.0 <= x <= steps as real;
    if steps > 1 && u != 0.0 {
      MulPos(m, u);
      assert x < steps as real;
    }
  }

  /** The smallest counterexample: a one-step episode, where the as-written
      timestep is 1, outside [0, 1). */
  lemma AsWrittenTimestepOneStep(u: real)
    requires UnitDraw(u)
    ensures AsWrittenTimestep(1, u) == 1
  {
    assert 1.0 + (1.0 - 1.0) * u == 1.0;
  }

  /** The timestep whose achieved goal replaces the desired goal:
      t + 1 + int(u * (steps - t)), a later row up to the terminal observation. */
  function FutureTimestep(steps: nat, t: nat, u: real): (ft: nat)
    requires UnitDraw(u) && t < steps
    ensures t + 1 <= ft <= steps
  {
    ScaledFloor(u, steps - t);
    t + 1 + (u * (steps - t) as real).Floor
  }

  /** Every observation of the row pursues `goal`. */
  function RelabelRow(row: seq<Obs>, goal: Vec): (r: seq<Obs>)
    ensures |r| == |row|
    ensures forall i :: 0 <= i < |row| ==> r[i] == row[i].(desiredGoal := goal)
  {
    seq(|row|, i requires 0 <= i < |row| => row[i].(desiredGoal := goal))
  }

  /** The reward of each step, computed from the goals of the observation that
      follows it (the first observation's reward is dropped). */
  function RowRewards(env: GoalEnv, row: seq<Obs>): (r: seq<real>)
    requires |row| > 0
    ensures |r| == |row| - 1
    ensures forall i :: 0 <= i < |r| ==> r[i] == env.computeReward(row[i + 1].achievedGoal, row[i + 1].desiredGoal)
  {
    seq(|row| - 1, i requires 0 <= i < |row| - 1 => env.computeReward(row[i + 1].achievedGoal, row[i + 1].desiredGoal))
  }

  /** The random draws of one batch row: timestep, Bernoulli and offset. */
  datatype RowDraws = RowDraws(timeU: real, herU: real, offsetU: real)

  predicate RowDrawsFit(d: RowDraws) {
    UnitDraw(d.timeU) && UnitDraw(d.herU) && UnitDraw(d.offsetU)
  }

  /** A sampled row of a stored episode. When the Bernoulli draw relabels it,
      the whole observation row gets the achieved goal at the future timestep;
      the reward is recomputed from row t + 1 either way. */
  function LazyRow(env: GoalEnv, n: nat, maxLen: nat, s: EpisodeSlot, d: RowDraws): (row: Row)
    requires WellFormed(maxLen, s) && RowDrawsFit(d)
    ensures var t := Timestep(s.steps, d.timeU);
      && row.action == s.actions[t]
      && row.done == s.dones[t]
      && row.reward == env.computeReward(row.nextObs.achievedGoal, row.nextObs.desiredGoal)
      && (Relabels(n, d.herU) ==>
            var g := s.obs[FutureTimestep(s.steps, t, d.offsetU)].achievedGoal;
            && row.obs == s.obs[t].(desiredGoal := g)
            && row.nextObs == s.obs[t + 1].(desiredGoal := g))
      && (!Relabels(n, d.herU) ==> row.obs == s.obs[t] && row.nextObs == s.obs[t + 1])
  {
    var t := Timestep(s.steps, d.timeU);
    var futureT := FutureTimestep(s.steps, t, d.offsetU);
    var obs := if Relabels(n, d.herU) then RelabelRow(s.obs, s.obs[futureT].achievedGoal) else s.obs;
    var rewards := RowRewards(env, obs);
    Row(obs[t], s.actions[t], obs[t + 1], s.dones[t], rewards[t])
  }

  /** A relabelled row pursues an achieved goal of a strictly later observation
      of its own episode, and is rewarded for that goal. */
  lemma RelabelledRowGoal(env: GoalEnv, n: nat, maxLen: nat, s: EpisodeSlot, d: RowDraws)
    requires WellFormed(maxLen, s) && RowDrawsFit(d) && Relabels(n, d.herU)
    ensures var t := Timestep(s.steps, d.timeU);
      exists k :: t < k <= s.steps && LazyRow(env, n, maxLen, s, d).obs.desiredGoal == s.obs[k].achievedGoal
        && LazyRow(env, n, maxLen, s, d).reward == env.computeReward(s.obs[t + 1].achievedGoal, s.obs[k].achievedGoal)
  {
    var t := Timestep(s.steps, d.timeU);
    var k := FutureTimestep(s.steps, t, d.offsetU);
    var row := LazyRow(env, n, maxLen, s, d);
    assert row.obs.desiredGoal == s.obs[k].achievedGoal;
    assert row.nextObs == s.obs[t + 1].(desiredGoal := s.obs[k].achievedGoal);
  }

  /** With n = 0 no row is relabelled and the sampled row is the stored one. */
  lemma NoGoalsNoRelabel(env: GoalEnv, maxLen: nat, s: EpisodeSlot, d: RowDraws)
    requires WellFormed(maxLen, s) && RowDrawsFit(d)
    ensures var t := Timestep(s.steps, d.timeU);
      LazyRow(env, 0, maxLen, s, d).obs == s.obs[t] && LazyRow(env, 0, maxLen, s, d).nextObs == s.obs[t + 1]
  {
    FutureProbability(0);
  }
}

=== FILE: relabel.dfy ===
/**
 The eager relabeller: when an episode ends in flat mode, every transition is
 written as it happened and is followed by `n` copies whose desired goal is an
 achieved goal picked by the strategy. The exceptions: under FUTURE the last
 transition has no later goal and gets no copies (replay_buffer.py:221-224),
 and RANDOM with copies to make raises NotImplementedError (line 328).
 */
module Relabel {
  import opened HerTypes
  import opened GoalSelection

  /** The reward of `t` is what the environment computes for the goals of its
      next observation. */
  predicate RewardMatchesGoal(env: GoalEnv, t: Transition) {
    t.reward == env.computeReward(t.nextObs.achievedGoal, t.nextObs.desiredGoal)
  }

  /** `c` agrees with `t` in everything but desired goals, reward and done. */
  predicate SameExceptGoal(t: Transition, c: Transition) {
    && c.obs.observation == t.obs.observation
    && c.obs.achievedGoal == t.obs.achievedGoal
    && c.nextObs.observation == t.nextObs.observation
    && c.nextObs.achievedGoal == t.nextObs.achievedGoal
    && c.action == t.action
  }

  /** The copy of `t` that pursues `goal`: both observations get the goal, the
      reward is recomputed for it, and the copy is never terminal. */
  function RelabelTransition(env: GoalEnv, t: Transition, goal: Vec): (c: Transition)
    ensures SameExceptGoal(t, c)
    ensures c.obs.desiredGoal == goal && c.nextObs.desiredGoal == goal
    ensures RewardMatchesGoal(env, c)
    ensures !c.done
  {
    Transition(
      t.obs.(desiredGoal := goal),
      t.nextObs.(desiredGoal := goal),
      t.action,
      env.computeReward(t.nextObs.achievedGoal, goal),
      false)
  }

  function RelabelAll(env: GoalEnv, t: Transition, goals: seq<Vec>): (cs: seq<Transition>)
    ensures |cs| == |goals|
    ensures forall j :: 0 <= j < |goals| ==> cs[j] == RelabelTransition(env, t, goals[j])
  {
    seq(|goals|, j requires 0 <= j < |goals| => RelabelTransition(env, t, goals[j]))
  }

  /** The random index draws of a whole episode: `n` per transition. */
  predicate DrawsFit(strategy: GoalSelectionStrategy, n: nat, ep: seq<Transition>, draws: seq<seq<nat>>) {
    && |draws| == |ep|
    && (forall i :: 0 <= i < |ep| ==> |draws[i]| == n)
    && (forall i, j :: 0 <= i < |ep| && 0 <= j < n ==> DrawFits(strategy, i, |ep|, draws[i][j]))
  }

  /** The writes of transitions i.. of the episode, in the order they happen.
      Under Future the last transition has no later goal and gets no copies. */
  function EpisodeWrites(env: GoalEnv, strategy: GoalSelectionStrategy, n: nat, ep: seq<Transition>,
                         draws: seq<seq<nat>>, i: nat): (r: Result<seq<Transition>>)
    requires i <= |ep| && DrawsFit(strategy, n, ep, draws)
    ensures r.Ok? <==> i == |ep| || strategy != Random || n == 0
    ensures r.Err? ==> r.error == NotImplemented
    decreases |ep| - i
  {
    if i == |ep| then Ok([])
    else if i == |ep| - 1 && strategy == Future then Ok([ep[i]])
    else
      var goals := SampleAchievedGoals(strategy, ep, i, draws[i]);
      var rest := EpisodeWrites(env, strategy, n, ep, draws, i + 1);
      match (goals, rest)
      case (Err(e), _) => Err(e)
      case (Ok(_), Err(e)) => Err(e)
      case (Ok(gs), Ok(ws)) => Ok([ep[i]] + RelabelAll(env, ep[i], gs) + ws)
  }

  /** The number of writes for an episode of length `len`. */
  function WriteCount(strategy: GoalSelectionStrategy, n: nat, len: nat): nat {
    if len == 0 then 0
    else if strategy == Future then len + (len - 1) * n
    else len * (1 + n)
  }

  lemma {:induction false} EpisodeWriteCount(env: GoalEnv, strategy: GoalSelectionStrategy, n: nat,
                                             ep: seq<Transition>, draws: seq<seq<nat>>, i: nat)
    requires i <= |ep| && DrawsFit(strategy, n, ep, draws)
    requires EpisodeWrites(env, strategy, n, ep, draws, i).Ok?
    ensures |EpisodeWrites(env, strategy, n, ep, draws, i).value| == WriteCount(strategy, n, |ep| - i)
    decreases |ep| - i
  {
    if i < |ep| && !(i == |ep| - 1 && strategy == Future) {
      EpisodeWriteCount(env, strategy, n, ep, draws, i + 1);
      CountStep(env, strategy, n, ep, draws, i);
    }
  }

  /** The inductive step of EpisodeWriteCount. */
  lemma CountStep(env: GoalEnv, strategy: GoalSelectionStrategy, n: nat,
                  ep: seq<Transition>, draws: seq<seq<nat>>, i: nat)
    requires i < |ep| && DrawsFit(strategy, n, ep, draws)
    requires !(i == |ep| - 1 && strategy == Future)
    requires EpisodeWrites(env, strategy, n, ep, draws, i).Ok?
    requires EpisodeWrites(env, strategy, n, ep, draws, i + 1).Ok?
    requires |EpisodeWrites(env, strategy, n, ep, draws, i + 1).value| == WriteCount(strategy, n, |ep| - (i + 1))
    ensures |EpisodeWrites(env, strategy, n, ep, draws, i).value| == WriteCount(strategy, n, |ep| - i)
  {
    EpisodeWritesStep(env, strategy, n, ep, draws, i);
    WriteCountStep(strategy, n, |ep| - i);
  }

  /** Each transition but FUTURE's last adds a block of n + 1 writes. */
  lemma WriteCountStep(strategy: GoalSelectionStrategy, n: nat, len: nat)
    requires len > 0 && !(strategy == Future && len == 1)
    ensures WriteCount(strategy, n, len) == (n + 1) + WriteCount(strategy, n, len - 1)
  {
    if strategy == Future {
      assert (len - 1) * n == n + (len - 2) * n;
    } else {
      assert len * (1 + n) == (1 + n) + (len - 1) * (1 + n);
    }
  }

  /** Where the raw transition m of an episode lands among its writes: after
      m blocks of n + 1 writes each. */
  function BlockStart(m: nat, n: nat): nat {
    if m == 0 then 0 else (n + 1) + BlockStart(m - 1, n)
  }

  /** Where the j-th relabelled copy of transition m lands among its writes. */
  function CopySlot(m: nat, n: nat, j: nat): nat {
    BlockStart(m, n) + 1 + j
  }

  /** `w` is transition m relabelled with an achieved goal the strategy may
      select for it. */
  ghost predicate IsRelabelOf(env: GoalEnv, strategy: GoalSelectionStrategy, ep: seq<Transition>, m: nat, w: Transition)
    requires m < |ep|
  {
    exists k: nat :: Selectable(strategy, m, |ep|, k) && w == RelabelTransition(env, ep[m], ep[k].obs.achievedGoal)
  }

  /** The closed form of `BlockStart`: block m of n + 1 writes starts at
      m * (n + 1). The layout lemmas use the recursive form. */
  lemma {:induction false} BlockStartIsProduct(m: nat, n: nat)
    ensures BlockStart(m, n) == m * (n + 1)
  {
    if m > 0 {
      BlockStartIsProduct(m - 1, n);
      assert m * (n + 1) == (n + 1) + (m - 1) * (n + 1);
    }
  }

  /** One step of EpisodeWrites: the block of transition i, then the rest. */
  lemma EpisodeWritesStep(env: GoalEnv, strategy: GoalSelectionStrategy, n: nat,
                          ep: seq<Transition>, draws: seq<seq<nat>>, i: nat)
    requires i < |ep| && DrawsFit(strategy, n, ep, draws)
    requires !(i == |ep| - 1 && strategy == Future)
    requires EpisodeWrites(env, strategy, n, ep, draws, i).Ok?
    ensures SampleAchievedGoals(strategy, ep, i, draws[i]).Ok?
    ensures EpisodeWrites(env, strategy, n, ep, draws, i + 1).Ok?
    ensures EpisodeWrites(env, strategy, n, ep, draws, i).value
      == [ep[i]] + RelabelAll(env, ep[i], SampleAchievedGoals(strategy, ep, i, draws[i]).value)
         + EpisodeWrites(env, strategy, n, ep, draws, i + 1).value
  {
  }

  /** In the writes `ws` of transitions i.., block d of n + 1 writes opens with
      the raw transition i + d. */
  ghost predicate RawFrom(ep: seq<Transition>, n: nat, i: nat, ws: seq<Transition>) {
    forall d :: 0 <= d < |ep| - i ==> BlockStart(d, n) < |ws| && ws[BlockStart(d, n)] == ep[i + d]
  }

  /** The writes of transitions i.. come in blocks of n + 1, each opened by the
      raw transition it belongs to. */
  lemma {:induction false} EpisodeWritesRaw(env: GoalEnv, strategy: GoalSelectionStrategy, n: nat,
                                            ep: seq<Transition>, draws: seq<seq<nat>>, i: nat)
    requires i <= |ep| && DrawsFit(strategy, n, ep, draws)
    requires EpisodeWrites(env, strategy, n, ep, draws, i).Ok?
    ensures RawFrom(ep, n, i, EpisodeWrites(env, strategy, n, ep, draws, i).value)
    decreases |ep| - i
  {
    if i == |ep| - 1 && strategy == Future {
      RawLast(env, strategy, n, ep, draws, i);
    } else if i < |ep| {
      EpisodeWritesRaw(env, strategy, n, ep, draws, i + 1);
      RawStep(env, strategy, n, ep, draws, i);
    }
  }

  /** Under Future the last transition is written alone. */
  lemma RawLast(env: GoalEnv, strategy: GoalSelectionStrategy, n: nat,
                ep: seq<Transition>, draws: seq<seq<nat>>, i: nat)
    requires i == |ep| - 1 && strategy == Future && DrawsFit(strategy, n, ep, draws)
    ensures EpisodeWrites(env, strategy, n, ep, draws, i) == Ok([ep[i]])
    ensures RawFrom(ep, n, i, EpisodeWrites(env, strategy, n, ep, draws, i).value)
  {
    assert BlockStart(0, n) == 0;
  }

  /** The inductive step of EpisodeWritesRaw. */
  lemma RawStep(env: GoalEnv, strategy: GoalSelectionStrategy, n: nat,
                ep: seq<Transition>, draws: seq<seq<nat>>, i: nat)
    requires i < |ep| && DrawsFit(strategy, n, ep, draws)
    requires !(i == |ep| - 1 && strategy == Future)
    requires EpisodeWrites(env, strategy, n, ep, draws, i).Ok?
    requires EpisodeWrites(env, strategy, n, ep, draws, i + 1).Ok?
    requires RawFrom(ep, n, i + 1, EpisodeWrites(env, strategy, n, ep, draws, i + 1).value)
    ensures RawFrom(ep, n, i, EpisodeWrites(env, strategy, n, ep, draws, i).value)
  {
    EpisodeWritesStep(env, strategy, n, ep, draws, i);
    var gs := SampleAchievedGoals(strategy, ep, i, draws[i]).value;
    RawBlocksShift(EpisodeWrites(env, strategy, n, ep, draws, i).value, [ep[i]] + RelabelAll(env, ep[i], gs),
                   EpisodeWrites(env, strategy, n, ep, draws, i + 1).value, ep, i, n);
  }

  /** Prepending the block of transition i keeps the raw transitions at the
      block starts. */
  lemma RawBlocksShift(ws: seq<Transition>, block: seq<Transition>, rest: seq<Transition>, ep: seq<Transition>, i: nat, n: nat)
    requires i < |ep| && |block| == n + 1 && block[0] == ep[i] && ws == block + rest
    requires RawFrom(ep, n, i + 1, rest)
    ensures RawFrom(ep, n, i, ws)
  {
    forall d | 0 <= d < |ep| - i
      ensures BlockStart(d, n) < |ws| && ws[BlockStart(d, n)] == ep[i + d]
    {
      if d >= 1 {
        assert 0 <= d - 1 < |ep| - (i + 1);
        assert rest[BlockStart(d - 1, n)] == ep[i + 1 + (d - 1)];
      }
    }
  }

  /** In the writes `ws` of transitions i.., the n writes after the raw
      transition i + d are relabels of it (none after the last transition
      under Future). */
  ghost predicate CopiesFrom(env: GoalEnv, strategy: GoalSelectionStrategy, ep: seq<Transition>, n: nat, i: nat, ws: seq<Transition>) {
    forall d, j :: 0 <= d < |ep| - i && 0 <= j < n && !(strategy == Future && i + d == |ep| - 1) ==>
      CopySlot(d, n, j) < |ws| && IsRelabelOf(env, strategy, ep, i + d, ws[CopySlot(d, n, j)])
  }

  /** Inside each block the raw transition is followed by its n relabelled
      copies (none for the last transition under Future). */
  lemma {:induction false} EpisodeWritesCopies(env: GoalEnv, strategy: GoalSelectionStrategy, n: nat,
                                               ep: seq<Transition>, draws: seq<seq<nat>>, i: nat)
    requires i <= |ep| && DrawsFit(strategy, n, ep, draws)
    requires EpisodeWrites(env, strategy, n, ep, draws, i).Ok?
    ensures CopiesFrom(env, strategy, ep, n, i, EpisodeWrites(env, strategy, n, ep, draws, i).value)
    decreases |ep| - i
  {
    if i < |ep| && !(i == |ep| - 1 && strategy == Future) {
      EpisodeWritesCopies(env, strategy, n, ep, draws, i + 1);
      CopiesStep(env, strategy, n, ep, draws, i);
    }
  }

  /** The inductive step of EpisodeWritesCopies. */
  lemma CopiesStep(env: GoalEnv, strategy: GoalSelectionStrategy, n: nat,
                   ep: seq<Transition>, draws: seq<seq<nat>>, i: nat)
    requires i < |ep| && DrawsFit(strategy, n, ep, draws)
    requires !(i == |ep| - 1 && strategy == Future)
    requires EpisodeWrites(env, strategy, n, ep, draws, i).Ok?
    requires EpisodeWrites(env, strategy, n, ep, draws, i + 1).Ok?
    requires CopiesFrom(env, strategy, ep, n, i + 1, EpisodeWrites(env, strategy, n, ep, draws, i + 1).value)
    ensures CopiesFrom(env, strategy, ep, n, i, EpisodeWrites(env, strategy, n, ep, draws, i).value)
  {
    EpisodeWritesStep(env, strategy, n, ep, draws, i);
    var gs := SampleAchievedGoals(strategy, ep, i, draws[i]).value;
    CopyBlocksShift(env, strategy, ep, i, n, gs, EpisodeWrites(env, strategy, n, ep, draws, i).value,
                    EpisodeWrites(env, strategy, n, ep, draws, i + 1).value);
  }

  /** Prepending the block of transition i puts its copies right after it and
      keeps the later copies at their places. */
  lemma CopyBlocksShift(env: GoalEnv, strategy: GoalSelectionStrategy, ep: seq<Transition>, i: nat, n: nat,
                        gs: seq<Vec>, ws: seq<Transition>, rest: seq<Transition>)
    requires i < |ep| && |gs| == n
    requires ws == [ep[i]] + RelabelAll(env, ep[i], gs) + rest
    requires forall j :: 0 <= j < |gs| ==> GoalFrom(strategy, ep, i, gs[j])
    requires CopiesFrom(env, strategy, ep, n, i + 1, rest)
    ensures CopiesFrom(env, strategy, ep, n, i, ws)
  {
    forall d, j | 0 <= d < |ep| - i && 0 <= j < n && !(strategy == Future && i + d == |ep| - 1)
      ensures CopySlot(d, n, j) < |ws| && IsRelabelOf(env, strategy, ep, i + d, ws[CopySlot(d, n, j)])
    {
      if d == 0 {
        CopyInBlock(env, strategy, ep, i, gs, j, ws, rest);
      } else {
        CopyInRest(env, strategy, ep, i, n, [ep[i]] + RelabelAll(env, ep[i], gs), ws, rest, d, j);
      }
    }
  }

  /** A copy in a later block keeps its place relative to the rest. */
  lemma CopyInRest(env: GoalEnv, strategy: GoalSelectionStrategy, ep: seq<Transition>, i: nat, n: nat,
                   block: seq<Transition>, ws: seq<Transition>, rest: seq<Transition>, d: nat, j: nat)
    requires i < |ep| && |block| == n + 1 && ws == block + rest
    requires CopiesFrom(env, strategy, ep, n, i + 1, rest)
    requires 0 < d < |ep| - i && j < n && !(strategy == Future && i + d == |ep| - 1)
    ensures CopySlot(d, n, j) < |ws| && IsRelabelOf(env, strategy, ep, i + d, ws[CopySlot(d, n, j)])
  {
    var d' := d - 1;
    assert 0 <= d' < |ep| - (i + 1) && i + 1 + d' == i + d;
    assert CopySlot(d', n, j) < |rest| && IsRelabelOf(env, strategy, ep, i + 1 + d', rest[CopySlot(d', n, j)]);
    assert CopySlot(d, n, j) == |block| + CopySlot(d', n, j);
    assert ws[CopySlot(d, n, j)] == rest[CopySlot(d', n, j)];
  }

  /** The copy at offset 1 + j of a block is a relabel of the block's transition. */
  lemma CopyInBlock(env: GoalEnv, strategy: GoalSelectionStrategy, ep: seq<Transition>, i: nat,
                    gs: seq<Vec>, j: nat, ws: seq<Transition>, rest: seq<Transition>)
    requires i < |ep| && j < |gs|
    requires GoalFrom(strategy, ep, i, gs[j])
    requires ws == [ep[i]] + RelabelAll(env, ep[i], gs) + rest
    ensures CopySlot(0, |gs|, j) < |ws| && IsRelabelOf(env, strategy, ep, i, ws[CopySlot(0, |gs|, j)])
  {
    assert ws[1 + j] == RelabelTransition(env, ep[i], gs[j]);
    var k: nat :| Selectable(strategy, i, |ep|, k) && ep[k].obs.achievedGoal == gs[j];
  }
}

=== FILE: ring_store.dfy ===
/**
 The fixed-capacity ring both storage layouts share: slot `pos` is written,
 `pos` advances, and on reaching the capacity it returns to 0 while `full`
 becomes (and stays) true. A slot holds None until it is first written, which
 stands for the zero-filled storage the buffer preallocates.
 */
module RingStore {
  import opened HerTypes

  datatype Ring<T> = Ring(slots: seq<Option<T>>, pos: nat, full: bool)

  /** `pos` is a slot index, and a slot has been written exactly when the ring
      has wrapped or the slot lies below `pos`. */
  ghost predicate Valid<T>(r: Ring<T>) {
    && (|r.slots| == 0 ==> r.pos == 0 && !r.full)
    && (|r.slots| > 0 ==> r.pos < |r.slots|)
    && (forall i :: 0 <= i < |r.slots| ==> (r.slots[i].Some? <==> r.full || i < r.pos))
  }

  function Empty<T>(capacity: nat): (r: Ring<T>)
    ensures Valid(r) && |r.slots| == capacity
    ensures r.pos == 0 && !r.full
    ensures forall i :: 0 <= i < capacity ==> r.slots[i].None?
  {
    Ring(seq(capacity, _ => None), 0, false)
  }

  /** The slot that the j-th write of a run starting at `start` lands in. */
  function WriteIndex(start: nat, capacity: nat, j: nat): nat
    requires capacity > 0
  {
    (start + j) % capacity
  }

  /** Whether one of the first `count` writes from `start` lands in slot `i`. */
  ghost predicate Touched(start: nat, capacity: nat, count: nat, i: nat)
    requires capacity > 0
  {
    exists j :: 0 <= j < count && WriteIndex(start, capacity, j) == i
  }

  /** One write: slot `pos` receives `x`, then `pos` advances and wraps. */
  function Push<T>(r: Ring<T>, x: T): (r': Ring<T>)
    requires Valid(r) && |r.slots| > 0
    ensures Valid(r') && |r'.slots| == |r.slots|
    ensures r'.slots[r.pos] == Some(x)
    ensures forall i :: 0 <= i < |r.slots| && i != r.pos ==> r'.slots[i] == r.slots[i]
    ensures r'.pos == WriteIndex(r.pos, |r.slots|, 1)
    ensures r'.full <==> r.full || r.pos + 1 == |r.slots|
  {
    var slots := r.slots[r.pos := Some(x)];
    if r.pos + 1 == |r.slots| then Ring(slots, 0, true) else Ring(slots, r.pos + 1, r.full)
  }

  /** The writes of `xs`, in order. Once full, the ring stays full. */
  function PushAll<T>(r: Ring<T>, xs: seq<T>): (r': Ring<T>)
    requires Valid(r) && (|xs| > 0 ==> |r.slots| > 0)
    ensures Valid(r') && |r'.slots| == |r.slots|
    ensures r.full ==> r'.full
    decreases |xs|
  {
    if xs == [] then r else Push(PushAll(r, xs[..|xs| - 1]), xs[|xs| - 1])
  }

  lemma ModOfSmall(a: nat, c: nat)
    requires a < c
    ensures a % c == a
  {
  }

  /** Sign facts about a multiple of a positive number. */
  lemma MulSign(k: int, c: int)
    requires c > 0
    ensures k >= 1 ==> k * c >= c
    ensures k <= 0 ==> k * c <= 0
    ensures k <= -1 ==> k * c <= -c
  {
  }

  /** Euclidean division has a unique remainder. */
  lemma ModUnique(a: int, c: int, q: int, m: int)
    requires c > 0 && a == q * c + m && 0 <= m < c
    ensures a % c == m
  {
    var q', m' := a / c, a % c;
    assert a == q' * c + m';
    assert (q - q') * c == q * c - q' * c;
    MulSign(q - q', c);
  }

  lemma ModSucc(a: nat, c: nat)
    requires c > 0
    ensures (a % c + 1) % c == (a + 1) % c
  {
    var q, m := a / c, a % c;
    assert a == q * c + m;
    if m + 1 < c {
      ModUnique(a + 1, c, q, m + 1);
      ModOfSmall(m + 1, c);
    } else {
      assert a + 1 == (q + 1) * c + 0;
      ModUnique(a + 1, c, q + 1, 0);
      ModUnique(m + 1, c, 1, 0);
    }
  }

  /** Writes fewer than `c` apart land in different slots. */
  lemma ModDistinct(a: nat, d: nat, c: nat)
    requires 0 < d < c
    ensures (a + d) % c != a % c
  {
    var q1, m1 := a / c, a % c;
    var q2, m2 := (a + d) / c, (a + d) % c;
    assert a == q1 * c + m1;
    assert a + d == q2 * c + m2;
    assert (q2 - q1) * c == q2 * c - q1 * c;
    MulSign(q2 - q1, c);
  }

  /** After a run of writes, `pos` has advanced by the run's length modulo the
      capacity, and `full` holds exactly when the run reached the capacity. */
  lemma {:induction false} PushAllPosition<T>(r: Ring<T>, xs: seq<T>)
    requires Valid(r) && |r.slots| > 0
    ensures PushAll(r, xs).pos == WriteIndex(r.pos, |r.slots|, |xs|)
    ensures PushAll(r, xs).full <==> r.full || r.pos + |xs| >= |r.slots|
    decreases |xs|
  {
    var c := |r.slots|;
    if xs == [] {
      ModOfSmall(r.pos, c);
    } else {
      var init := xs[..|xs| - 1];
      PushAllPosition(r, init);
      var r1 := PushAll(r, init);
      ModSucc(r.pos + |init|, c);
      if r.pos + |init| < c {
        ModOfSmall(r.pos + |init|, c);
      }
    }
  }

  /** After a run of writes, each of the last `capacity` values sits in the slot
      it was written to, and every slot no write reached is unchanged. */
  lemma PushAllContents<T>(r: Ring<T>, xs: seq<T>)
    requires Valid(r) && |r.slots| > 0
    ensures forall j :: 0 <= j < |xs| && |xs| - j <= |r.slots| ==>
      PushAll(r, xs).slots[WriteIndex(r.pos, |r.slots|, j)] == Some(xs[j])
    ensures forall i :: 0 <= i < |r.slots| && !Touched(r.pos, |r.slots|, |xs|, i) ==>
      PushAll(r, xs).slots[i] == r.slots[i]
  {
    PushAllWritten(r, xs);
    PushAllUntouched(r, xs);
  }

  lemma {:induction false} PushAllWritten<T>(r: Ring<T>, xs: seq<T>)
    requires Valid(r) && |r.slots| > 0
    ensures forall j :: 0 <= j < |xs| && |xs| - j <= |r.slots| ==>
      PushAll(r, xs).slots[WriteIndex(r.pos, |r.slots|, j)] == Some(xs[j])
    decreases |xs|
  {
    var c := |r.slots|;
    if xs != [] {
      var n := |xs|;
      var init := xs[..n - 1];
      PushAllWritten(r, init);
      PushAllPosition(r, init);
      var r1 := PushAll(r, init);
      assert PushAll(r, xs) == Push(r1, xs[n - 1]);
      forall j | 0 <= j < n && n - j <= c
        ensures PushAll(r, xs).slots[WriteIndex(r.pos, c, j)] == Some(xs[j])
      {
        if j < n - 1 {
          ModDistinct(r.pos + j, n - 1 - j, c);
          assert r.pos + j + (n - 1 - j) == r.pos + (n - 1);
          assert init[j] == xs[j];
        }
      }
    }
  }

  lemma {:induction false} PushAllUntouched<T>(r: Ring<T>, xs: seq<T>)
    requires Valid(r) && |r.slots| > 0
    ensures forall i :: 0 <= i < |r.slots| && !Touched(r.pos, |r.slots|, |xs|, i) ==>
      PushAll(r, xs).slots[i] == r.slots[i]
    decreases |xs|
  {
    var c := |r.slots|;
    if xs != [] {
      var n := |xs|;
      var init := xs[..n - 1];
      PushAllUntouched(r, init);
      PushAllPosition(r, init);
      var r1 := PushAll(r, init);
      assert PushAll(r, xs) == Push(r1, xs[n - 1]);
      forall i | 0 <= i < c && !Touched(r.pos, c, n, i)
        ensures PushAll(r, xs).slots[i] == r.slots[i]
      {
        assert WriteIndex(r.pos, c, n - 1) != i;
        assert !Touched(r.pos, c, n - 1, i);
      }
    }
  }

  /** Filling a fresh ring: below the capacity the k-th value sits in slot k and
      the ring is not yet full; the ring becomes full exactly when the number
      of writes reaches the capacity. */
  lemma FillFromEmpty<T>(capacity: nat, xs: seq<T>)
    requires capacity > 0
    ensures PushAll(Empty<T>(capacity), xs).full <==> |xs| >= capacity
    ensures PushAll(Empty<T>(capacity), xs).pos == |xs| % capacity
    ensures |xs| < capacity ==>
      forall i :: 0 <= i < capacity ==>
        PushAll(Empty<T>(capacity), xs).slots[i] == (if i < |xs| then Some(xs[i]) else None)
  {
    var e := Empty<T>(capacity);
    PushAllPosition(e, xs);
    PushAllContents(e, xs);
    if |xs| < capacity {
      forall i | 0 <= i < capacity
        ensures PushAll(e, xs).slots[i] == (if i < |xs| then Some(xs[i]) else None)
      {
        if i < |xs| {
          ModOfSmall(i, capacity);
          assert WriteIndex(0, capacity, i) == i;
        } else if Touched(0, capacity, |xs|, i) {
          var j :| 0 <= j < |xs| && WriteIndex(0, capacity, j) == i;
          ModOfSmall(j, capacity);
        }
      }
    }
  }
}
